=== FILE: README.md ===
# Flappy Bird simulation core, modelled in Dafny

This project models the per-tick simulation and the phase machine of
`FlappyBirdGame` in `flappy.py`. The bird falls under gravity and flaps
upwards. A stream of pipes moves left. The player scores one point per pipe
passed, and a collision ends the run and updates the high score. Three
phases — START, PLAYING and GAME_OVER — decide which inputs mean what.

The model is functional: one immutable `Game` record holds the phase, score,
high score, bird, pipe sequence, running flag and random-draw cursor. Pure
functions `Tick`, `UpdatePipes`, `Collides`, `HandleEvent`, `Frame` and `Run`
transform it.

Modules, one per component:

- `Config` (config.dfy): window, bird, pipe and physics constants.
- `Pipes` (pipes.dfy): the pipe record, `create_initial_pipes` and `update_pipes`.
  Also the stream invariant `WellFormed`: three pipes in ascending x, exactly
  300 apart, each with a 200-pixel gap, a top height in [100, 300], and a
  passed flag set exactly when the pipe is behind the bird. The lemmas prove
  that every update preserves this invariant.
- `Physics` (physics.dfy): `update_bird` and the flap.
- `Collision` (collision.dfy): `check_collision`.
- `Controller` (controller.dfy): `reset_game`, `handle_click`, the key and
  mouse dispatch of `run`, the per-frame game logic, and the main loop.
- `Invariants` (invariants.dfy): the whole-state invariant, its preservation
  by every event, tick, frame and run, and a proof that a run without input
  always ends.

Units: pipe positions and heights are whole pixels, as in the source. Bird
`y` and velocity are in half-pixels, because gravity is 0.5 px per tick.
So bird `y` 350 px is 700, the velocity cap of 10 px is 20, and the flap
velocity of -8 px is -16. Collision rectangles are built in half-pixels
too, so every comparison is exact integer arithmetic.

Randomness: `random.randint(100, …)` becomes a `HeightSource`, a function
from a draw index to a height. The `draws` field of the game records how
many heights have been used. A reset uses three draws, and a pipe update
uses one only when it appends a pipe. The invariant lemmas assume
`ValidSource`: every draw lies in [100, 300]. The two upper-bound formulas
of the source are kept as separate constants, `700 - 200 - 200` for the
initial pipes and `600 - 200 - 100` for later ones. Both equal 300, so the
invariant covers both.

Three behaviours of `flappy.py` that the model reproduces exactly:

- `update_bird` moves the bird by the new, unclamped velocity and only then
  caps it, so a bird at the cap still moves 10.5 px per tick.
- SPACE/UP on the game-over screen resets and starts a new run.
- After a quit request the rest of that frame's events are still handled and
  the tick still runs. Only the next `while running` check stops the loop.

## Model

| member | source | states |
|---|---|---|
| Pipes.CreateInitialPipes | flappy.py:59-69 | three pipes at x = 600, 900, 1200, each unpassed with the drawn height; with heights in range they satisfy the stream invariant |
| Pipes.InitialPipesWellFormed | flappy.py:59-69 | initial pipes drawn within randint's bounds form a well-formed stream whose first pipe is at the window's right edge |
| Pipes.Advance | flappy.py:276-282 | one pipe moves by exactly -4 with its heights unchanged; its passed flag never turns off, and it turns on exactly when the moved pipe's right edge is left of the bird |
| Pipes.AdvanceAll | flappy.py:276-282 | the loop keeps the number of pipes, and the points it scores equal the number of passed flags it turned on, so an already passed pipe never scores again |
| Pipes.AdvanceAllPointwise | flappy.py:276-277 | the loop transforms each pipe in place with the single-pipe step, keeping the order |
| Pipes.Cull | flappy.py:285 | the filtered list is never longer than the input; which pipes survive and in what order is stated by CullMembership and CullAppend |
| Pipes.CullMembership | flappy.py:285 | culling keeps exactly the pipes with x > -60 and introduces no others |
| Pipes.CullAppend | flappy.py:285 | culling is a filter that distributes over concatenation, so survivors keep their relative order |
| Pipes.CullKeepsOnScreen | flappy.py:285 | a stream entirely on screen is left unchanged |
| Pipes.RightmostX | flappy.py:289 | the result is the x of some pipe and no pipe lies further right |
| Pipes.UpdatePipes | flappy.py:274-296 | the points scored equal the passed flags turned on by the move, and the list grows by at most one pipe |
| Pipes.UpdateKeepsSurvivors | flappy.py:276-288 | the result starts with the moved survivors in their old order, and one random height is drawn exactly when fewer than three survived |
| Pipes.UpdateAppendsNewPipe | flappy.py:288-296 | when fewer than three survive, exactly one pipe is appended: unpassed, with the drawn height and a 200 gap, 300 right of the rightmost survivor, or at 900 if none survived |
| Pipes.UpdateDropsOnlyPassed | flappy.py:279-285 | every moved pipe missing from the result was already marked passed, because the removal threshold x <= -60 lies left of the passing threshold x + 60 < 120 |
| Pipes.AdvanceKeepsPipeOk | flappy.py:276-282 | moving a pipe keeps its fixed gap, its height bounds, and "passed iff behind the bird" |
| Pipes.MovedStream | flappy.py:276-285 | after the move of a well-formed stream only the first pipe can be off screen, and culling drops exactly that one |
| Pipes.NoneCulled | flappy.py:285-288 | when no pipe leaves the screen the update keeps the invariant without appending |
| Pipes.FirstCulled | flappy.py:285-296 | when the first pipe leaves, the appended pipe restores three pipes 300 apart |
| Pipes.UpdatePreservesWellFormed | flappy.py:274-296 | `update_pipes` preserves the stream invariant, so there are always exactly three pipes, 300 apart, with fixed gap |
| Pipes.UpdateGainsAtMostOne | flappy.py:276-282 | on a well-formed stream one update scores at most one point |
| Physics.Fall | flappy.py:264-272 | the bird moves by the old velocity plus gravity, the unclamped new velocity; afterwards the velocity is at most 10 px and equals old + 0.5 below the cap |
| Physics.Flap | flappy.py:351-353 | a flap sets the velocity to exactly -8 px whatever it was, which lies in the reachable velocity range, and leaves the position alone |
| Physics.FallProgress | flappy.py:264-272 | gravity keeps the velocity between -8 and 10 px and strictly lowers the fall measure, which combines the distance to the ground with the distance from the cap |
| Collision.HitsAny | flappy.py:307-313 | the pipe loop reports a hit exactly when some pipe's top or bottom rectangle overlaps the bird |
| Collision.Collides | flappy.py:298-315 | true whenever the bird touches the ground (y + 30 >= 600) or the top (y <= 0), whatever the pipes; otherwise true exactly when some pipe is hit |
| Collision.CollidesMonotone | flappy.py:307-315 | the collision result on a concatenation is the disjunction of both parts, so adding pipes can only turn false into true |
| Collision.PassedPipeIsHarmless | flappy.py:279-313 | a pipe marked passed, under the pipe invariant, can no longer be hit |
| Collision.InsideGapsIsSafe | flappy.py:298-315 | a bird within the bounds and inside every pipe's gap does not collide |
| Controller.Initial | flappy.py:36-57 | the constructed game is on the start screen with zero scores, the bird at its start and three unpassed pipes from x = 600 whose heights are the first three draws, which are marked consumed |
| Controller.Reset | flappy.py:257-262 | `reset_game` puts the bird at 350 px with velocity 0, zeroes the score and recreates three unpassed pipes at 600, 900, 1200 whose heights are the next three random draws; it consumes exactly three draws and leaves phase, high score and running flag alone |
| Controller.StartRun | flappy.py:355-359 | beginning a run from START or GAME_OVER resets the bird, score and pipes and enters PLAYING, keeping the high score and running flag |
| Controller.HandleClick | flappy.py:317-337 | START GAME on the start screen and PLAY AGAIN on the game-over screen begin a run (reset, then PLAYING); MAIN MENU on the game-over screen goes to START with no reset; QUIT on either screen stops the game; every other target, and any click in PLAYING, changes nothing; the high score is never touched |
| Controller.HandleEvent | flappy.py:344-365 | window close and Escape only clear the running flag; other keys and events change nothing; SPACE/UP flaps in PLAYING and otherwise is exactly a new run (reset, then PLAYING); START GAME or PLAY AGAIN begins a run and then flaps; MAIN MENU in GAME_OVER goes to START with no reset; QUIT outside PLAYING only clears the running flag; any click in PLAYING only flaps; any other click on the start or game-over screen changes nothing; the high score is untouched |
| Controller.HandleEvents | flappy.py:344-365 | the events of a frame never change the high score and never restart a stopped game |
| Controller.HandleEventsOne | flappy.py:344-365 | a frame with one event applies exactly that event's dispatch |
| Controller.HandleEventsAppend | flappy.py:344-365 | the events of a frame are applied one by one in arrival order: the events of `a` and then `b` act as the events of `a + b` |
| Controller.HandleEventsQuit | flappy.py:345-350 | a window close or Escape anywhere among a frame's events leaves the game stopped, whatever events follow it |
| Controller.Tick | flappy.py:367-375 | outside PLAYING nothing changes; the score and high score never decrease; the running flag is untouched; the phase either stays or becomes GAME_OVER; on entering GAME_OVER the high score is at least the score |
| Controller.TickPlaying | flappy.py:367-375 | in PLAYING the bird falls, the pipes update and add their points, one random draw is consumed exactly when a pipe is appended, the run ends exactly when the new state collides, and then the high score becomes max(high score, score) |
| Controller.Frame | flappy.py:344-375 | one main-loop iteration never lowers the high score and never restarts a stopped game; with no events it is exactly the tick |
| Controller.FrameQuit | flappy.py:344-350 | a window close or Escape among a frame's events leaves the game stopped at the end of that frame |
| Controller.Run | flappy.py:339-375 | over any sequence of frames the high score never decreases; once the running flag is false the loop plays no more frames |
| Controller.RunAppend | flappy.py:343-375 | frames are played one after another in order: playing `a` then `b` is playing `a + b`, also when the game stops inside `a` |
| Controller.RunQuitStops | flappy.py:343-350 | a window close or Escape in a frame ends the loop after that frame, whose tick still runs |
| Invariants.InitialValid | flappy.py:36-57 | the constructed game satisfies the state invariant |
| Invariants.ResetValid | flappy.py:257-262 | a reset with a valid random source yields a well-formed pipe stream |
| Invariants.HandleEventValid | flappy.py:344-365 | every input event keeps the state invariant |
| Invariants.HandleEventsValid | flappy.py:344-365 | the events of one frame keep the state invariant |
| Invariants.TickValid | flappy.py:367-375 | the per-frame game logic keeps the state invariant |
| Invariants.FrameValid | flappy.py:343-375 | one iteration of the main loop keeps the state invariant |
| Invariants.RunValid | flappy.py:343-375 | every state the main loop reaches is valid, so it always holds exactly three pipes |
| Invariants.TickScoresAtMostOne | flappy.py:367-375 | in a valid game one frame's tick adds at most one point |
| Invariants.ResetForgetsRun | flappy.py:257-262 | the state after a reset depends only on the phase, high score, running flag and random cursor, not on the run being reset |
| Invariants.IdleAfterGameOver | flappy.py:367-368 | frames without input after GAME_OVER change nothing |
| Invariants.IdleFrameStep | flappy.py:367-375 | an idle frame in PLAYING applies gravity and, if the run goes on, leaves the bird inside the play area |
| Invariants.IdleRunEnds | flappy.py:264-375 | a run in PLAYING without input reaches GAME_OVER within a number of frames bounded by the bird's fall measure |
| Invariants.FreshRunEnds | flappy.py:257-375 | after a fresh start, at most 760 frames without input end the run |

## Left out

- Drawing: every `draw_*` method, the gradients, fonts, `pygame.display` and the frame clock (`FPS`). These are presentation and timing only.
- Event polling and button hit-testing: a mouse press is modelled by the control of the current screen under the mouse cursor (`Target`), not by coordinates and `Rect.collidepoint`. The buttons of each screen do not overlap, so at most one can be hit.
- `pygame.quit` and `sys.exit`: modelled by the `running` flag. `Run` stops before the next frame once the flag is false.
- `random.randint`: replaced by the injected `HeightSource`. The bounds randint guarantees appear as the `ValidSource` assumption of the invariant lemmas.
- Floating point: bird `y` and velocity are only ever multiples of 0.5, so half-pixel integers represent them exactly.
- Collision.Collides: pygame's conversion of the float `bird_y` to an integer rectangle, and the exact semantics of `colliderect`, are library behaviour that is not part of this model. Overlap is assumed to be strict intersection of both extents with positive sizes, computed on the exact half-pixel position.
- Invariants.ResetForgetsRun: this stands in for "a reset is idempotent up to the random heights". Two resets in a row consume six random draws rather than three, so their results differ in the random cursor and in the pipe heights.
- Pipes.Cull: its contract states only the length bound. Which pipes survive and their order are stated by the lemmas CullMembership and CullAppend instead, because quantified postconditions on the function itself made proofs spanning several ticks exceed the solver's limits.

=== FILE: collision.dfy ===
/** The collision test (`check_collision`): the ceiling and ground bounds,
    then rectangle overlap against each pipe's top and bottom parts. */
module Collision {
  import opened Config
  import opened Pipes

  /** An axis-aligned rectangle in half-pixels: left/top corner and size. */
  datatype Rect = Rect(left: int, top: int, width: int, height: int)

  /** Two rectangles overlap when both have positive size and their
      horizontal and vertical extents intersect with positive length. */
  predicate Overlaps(a: Rect, b: Rect)
  {
    && a.width > 0 && a.height > 0 && b.width > 0 && b.height > 0
    && a.left < b.left + b.width && b.left < a.left + a.width
    && a.top < b.top + b.height && b.top < a.top + a.height
  }

  /** The bird's bounding box when its top edge is at `y` (half-pixels). */
  function BirdRect(y: int): Rect
  {
    Rect(2 * BirdX, y, 2 * BirdWidth, 2 * BirdHeight)
  }

  function TopRect(p: Pipe): Rect
  {
    Rect(2 * p.x, 0, 2 * PipeWidth, 2 * p.topHeight)
  }

  function BottomRect(p: Pipe): Rect
  {
    Rect(2 * p.x, 2 * p.bottomY, 2 * PipeWidth, 2 * (WindowHeight - p.bottomY))
  }

  /** The bird touches the ground or the top edge of the window. */
  predicate OutOfBounds(y: int)
  {
    y + 2 * BirdHeight >= 2 * GroundY || y <= 0
  }

  predicate HitsPipe(y: int, p: Pipe)
  {
    Overlaps(BirdRect(y), TopRect(p)) || Overlaps(BirdRect(y), BottomRect(p))
  }

  /** The loop over the pipes: some pipe is hit. */
  function HitsAny(y: int, ps: seq<Pipe>): (r: bool)
    ensures r <==> exists i :: 0 <= i < |ps| && HitsPipe(y, ps[i])
  {
    if ps == [] then false
    else if HitsPipe(y, ps[0]) then true
    else
      assert forall i :: 1 <= i < |ps| ==> ps[i] == ps[1..][i-1];
      HitsAny(y, ps[1..])
  }

  /** `check_collision`: true at the ground or the top edge whatever the
      pipes, and otherwise exactly when some pipe is hit. */
  function Collides(y: int, ps: seq<Pipe>): (r: bool)
    ensures OutOfBounds(y) ==> r
    ensures !OutOfBounds(y) ==> (r <==> exists i :: 0 <= i < |ps| && HitsPipe(y, ps[i]))
  {
    if OutOfBounds(y) then true else HitsAny(y, ps)
  }

  /** More pipes can only turn a miss into a hit, never the reverse. */
  lemma CollidesMonotone(y: int, ps: seq<Pipe>, qs: seq<Pipe>)
    ensures Collides(y, ps + qs) == (Collides(y, ps) || Collides(y, qs))
  {
    if !OutOfBounds(y) {
      if Collides(y, ps) {
        var i :| 0 <= i < |ps| && HitsPipe(y, ps[i]);
        assert (ps + qs)[i] == ps[i];
      }
      if Collides(y, qs) {
        var i :| 0 <= i < |qs| && HitsPipe(y, qs[i]);
        assert (ps + qs)[|ps| + i] == qs[i];
      }
    }
  }

  /** A pipe whose passed flag is set, under the pipe invariant, lies
      entirely left of the bird and can no longer be hit. */
  lemma PassedPipeIsHarmless(y: int, p: Pipe)
    requires PipeOk(p) && p.passed
    ensures !HitsPipe(y, p)
  {
  }

  /** A bird within the bounds and inside every pipe's gap collides with nothing. */
  lemma InsideGapsIsSafe(y: int, ps: seq<Pipe>)
    requires !OutOfBounds(y)
    requires forall i :: 0 <= i < |ps| ==>
               2 * ps[i].topHeight <= y && y + 2 * BirdHeight <= 2 * ps[i].bottomY
    ensures !Collides(y, ps)
  {
  }
}

=== FILE: config.dfy ===
/** Screen geometry and tuning constants of the game.

    Pipe positions and heights are whole pixels, as in the game. The bird's
    vertical position and velocity are kept in HALF-pixels: gravity adds
    0.5 px per tick, so both are always multiples of one half and integers
    in half-pixel units represent them exactly. */
module Config {
  const WindowWidth: int := 600
  const WindowHeight: int := 700
  /** Top edge of the ground strip. */
  const GroundY: int := WindowHeight - 100

  /** Fixed horizontal position and size of the bird (pixels). */
  const BirdX: int := WindowWidth / 5
  const BirdStartY: int := WindowHeight / 2
  const BirdWidth: int := 40
  const BirdHeight: int := 30

  const PipeWidth: int := 60
  const PipeGap: int := 200
  /** Horizontal pipe movement per tick (pixels). */
  const PipeVelocity: int := -4
  /** Horizontal distance between consecutive pipes (pixels). */
  const PipeSpacing: int := 300
  /** Number of pipes the stream is topped up to. */
  const PipeCount: int := 3

  /** Bounds of the random top height: the initial pipes and the later ones
      use two different formulas, which happen to give the same bound. */
  const MinPipeHeight: int := 100
  const InitialMaxPipeHeight: int := WindowHeight - PipeGap - 200
  const MaxPipeHeight: int := GroundY - PipeGap - 100

  /** Gravity per tick, cap on the downward velocity and the flap velocity,
      all in half-pixels per tick (0.5, 10 and -8 px). */
  const Gravity: int := 1
  const MaxFallSpeed: int := 20
  const FlapSpeed: int := -16
}

=== FILE: controller.dfy ===
/** The three-phase controller (`run`, `handle_click`, `reset_game`): the
    events of one frame are applied in order, then one simulation tick runs
    if a game is in progress. */
module Controller {
  import opened Config
  import opened Pipes
  import opened Physics
  import opened Collision

  datatype Phase = Start | Playing | GameOver

  datatype Key = Space | Up | Escape | OtherKey

  /** The control of the current screen under the mouse cursor when the mouse
      is pressed: the start screen shows StartButton and QuitButton, the
      game-over screen RestartButton, MenuButton and QuitButton. A target
      that the current screen does not show acts like Background. */
  datatype Target = StartButton | QuitButton | RestartButton | MenuButton | Background

  datatype Event = WindowClosed | KeyDown(key: Key) | MouseDown(target: Target) | OtherEvent

  /** The random height generator, as a deterministic stream: the i-th
      draw is `rng(i)`. */
  type HeightSource = nat -> int

  /** Every draw lies within the bounds `random.randint` is asked for. */
  ghost predicate ValidSource(rng: HeightSource)
  {
    forall i: nat :: HeightInRange(rng(i))
  }

  /** The whole game state. `draws` counts the random heights consumed so
      far; `running` turns false on a quit request. */
  datatype Game = Game(phase: Phase, score: nat, highScore: nat, bird: Bird,
                       pipes: seq<Pipe>, running: bool, draws: nat)

  function InitialHeights(rng: HeightSource, from: nat): (hs: seq<int>)
    ensures |hs| == PipeCount
  {
    [rng(from), rng(from + 1), rng(from + 2)]
  }

  /** The state right after construction: start screen, fresh pipes. */
  function Initial(rng: HeightSource): (g: Game)
    ensures g.phase == Start && g.score == 0 && g.highScore == 0 && g.running
    ensures g.bird == StartBird && |g.pipes| == PipeCount && g.pipes[0].x == WindowWidth
    ensures forall i :: 0 <= i < |g.pipes| ==> g.pipes[i].topHeight == rng(i) && !g.pipes[i].passed
    ensures g.draws == PipeCount
  {
    Game(Start, 0, 0, StartBird, CreateInitialPipes(InitialHeights(rng, 0)), true, PipeCount)
  }

  /** `reset_game`: the bird back at its start, score zero, three new
      pipes; the phase, high score and running flag are left alone. */
  function Reset(g: Game, rng: HeightSource): (r: Game)
    ensures r.bird == StartBird && r.score == 0
    ensures |r.pipes| == PipeCount
    ensures forall i :: 0 <= i < |r.pipes| ==>
              && r.pipes[i].x == WindowWidth + i * PipeSpacing && !r.pipes[i].passed
              && r.pipes[i].topHeight == rng(g.draws + i)
    ensures r.draws == g.draws + PipeCount
    ensures r.phase == g.phase && r.highScore == g.highScore && r.running == g.running
    ensures ValidSource(rng) ==> WellFormed(r.pipes)
  {
    var pipes := CreateInitialPipes(InitialHeights(rng, g.draws));
    g.(bird := StartBird, score := 0, pipes := pipes, draws := g.draws + PipeCount)
  }

  /** Begin a run from the start or game-over screen: a reset, and the
      phase becomes PLAYING. */
  function StartRun(g: Game, rng: HeightSource): (r: Game)
    ensures r.phase == Playing && r.score == 0 && r.bird == StartBird
    ensures r.pipes == Reset(g, rng).pipes && r.draws == g.draws + PipeCount
    ensures r.highScore == g.highScore && r.running == g.running
  {
    Reset(g, rng).(phase := Playing)
  }

  /** `handle_click`: the new state and whether the game keeps running. */
  function HandleClick(g: Game, target: Target, rng: HeightSource): (r: (Game, bool))
    ensures r.0.highScore == g.highScore && r.0.running == g.running
    ensures !r.1 <==> g.phase != Playing && target == QuitButton
    ensures g.phase == Playing ==> r.0 == g
    ensures g.phase == Start && target == StartButton ==> r.0 == StartRun(g, rng)
    ensures g.phase == GameOver && target == RestartButton ==> r.0 == StartRun(g, rng)
    ensures g.phase == GameOver && target == MenuButton ==> r.0 == g.(phase := Start)
    ensures g.phase == Start && target != StartButton ==> r.0 == g
    ensures g.phase == GameOver && target != RestartButton && target != MenuButton ==> r.0 == g
  {
    match g.phase
    case Start =>
      if target == StartButton then (StartRun(g, rng), true)
      else if target == QuitButton then (g, false)
      else (g, true)
    case GameOver =>
      if target == RestartButton then (StartRun(g, rng), true)
      else if target == MenuButton then (g.(phase := Start), true)
      else if target == QuitButton then (g, false)
      else (g, true)
    case Playing => (g, true)
  }

  /** One input event, as dispatched in the main loop. */
  function HandleEvent(g: Game, e: Event, rng: HeightSource): (r: Game)
    ensures r.highScore == g.highScore
    ensures !r.running <==> !g.running || e == WindowClosed || e == KeyDown(Escape)
                            || (e == MouseDown(QuitButton) && g.phase != Playing)
    ensures e.KeyDown? && (e.key == Space || e.key == Up) ==> r.phase == Playing
    ensures g.phase == Playing && e.KeyDown? && (e.key == Space || e.key == Up) ==>
              r == g.(bird := Flap(g.bird))
    ensures g.phase == GameOver && e == MouseDown(MenuButton) ==> r == g.(phase := Start)
    ensures e.MouseDown? && r.phase == Playing ==> r.bird.velocity == FlapSpeed
    ensures r.phase == Playing && g.phase != Playing ==>
              r.score == 0 && r.bird.y == StartBird.y && r.pipes == Reset(g, rng).pipes
    ensures r.phase == Playing && g.phase != Playing && e.KeyDown? ==> r.bird == StartBird
    ensures e == WindowClosed || e == KeyDown(Escape) ==> r == g.(running := false)
    ensures e == OtherEvent || e == KeyDown(OtherKey) ==> r == g
    ensures (g.phase == Start && e == MouseDown(StartButton)) || (g.phase == GameOver && e == MouseDown(RestartButton)) ==>
              r == StartRun(g, rng).(bird := Flap(StartBird))
    ensures g.phase != Playing && e.KeyDown? && (e.key == Space || e.key == Up) ==> r == StartRun(g, rng)
    ensures g.phase == Playing && e.MouseDown? ==> r == g.(bird := Flap(g.bird))
    ensures g.phase != Playing && e == MouseDown(QuitButton) ==> r == g.(running := false)
    ensures g.phase == Start && e.MouseDown? && e.target !in {StartButton, QuitButton} ==> r == g
    ensures g.phase == GameOver && e.MouseDown? && e.target !in {RestartButton, MenuButton, QuitButton} ==> r == g
  {
    match e
    case WindowClosed => g.(running := false)
    case KeyDown(k) =>
      if k == Escape then g.(running := false)
      else if k == Space || k == Up then
        (if g.phase == Playing then g.(bird := Flap(g.bird)) else StartRun(g, rng))
      else g
    case MouseDown(target) =>
      var (g', keepRunning) := HandleClick(g, target, rng);
      if !keepRunning then g'.(running := false)
      else if g'.phase == Playing then g'.(bird := Flap(g'.bird))
      else g'
    case OtherEvent => g
  }

  /** The events of one frame, in order. */
  function HandleEvents(g: Game, events: seq<Event>, rng: HeightSource): (r: Game)
    ensures r.highScore == g.highScore
    ensures !g.running ==> !r.running
    decreases |events|
  {
    if events == [] then g else HandleEvents(HandleEvent(g, events[0], rng), events[1..], rng)
  }

  /** A frame with a single event applies exactly that event. */
  lemma HandleEventsOne(g: Game, e: Event, rng: HeightSource)
    ensures HandleEvents(g, [e], rng) == HandleEvent(g, e, rng)
  {
  }

  /** Events are applied in arrival order: the events of `a` and then
      those of `b` act as the events of `a + b`. */
  lemma {:induction false} HandleEventsAppend(g: Game, a: seq<Event>, b: seq<Event>, rng: HeightSource)
    ensures HandleEvents(g, a + b, rng) == HandleEvents(HandleEvents(g, a, rng), b, rng)
    decreases |a|
  {
    if a == [] {
      assert a + b == b;
    } else {
      assert (a + b)[0] == a[0];
      assert (a + b)[1..] == a[1..] + b;
      HandleEventsAppend(HandleEvent(g, a[0], rng), a[1..], b, rng);
    }
  }

  /** A window close or an Escape anywhere among a frame's events stops the
      game, whatever comes after it. */
  lemma {:induction false} HandleEventsQuit(g: Game, events: seq<Event>, rng: HeightSource)
    requires WindowClosed in events || KeyDown(Escape) in events
    ensures !HandleEvents(g, events, rng).running
    decreases |events|
  {
    var g' := HandleEvent(g, events[0], rng);
    if events[0] == WindowClosed || events[0] == KeyDown(Escape) {
      assert !g'.running;
    } else {
      assert events == [events[0]] + events[1..];
      HandleEventsQuit(g', events[1..], rng);
    }
  }

  /** The game logic of one frame: in PLAYING, gravity, the pipe update,
      then the collision test, which ends the run and records the high
      score. Other phases are left untouched. */
  function Tick(g: Game, rng: HeightSource): (r: Game)
    ensures g.phase != Playing ==> r == g
    ensures r.highScore >= g.highScore && r.score >= g.score
    ensures r.phase == g.phase || r.phase == GameOver
    ensures r.phase == GameOver && g.phase == Playing ==> r.score <= r.highScore
    ensures r.running == g.running
  {
    if g.phase != Playing then g
    else
      var bird := Fall(g.bird);
      var step := UpdatePipes(g.pipes, rng(g.draws));
      var g' := g.(bird := bird, pipes := step.pipes, score := g.score + step.gained,
                   draws := if step.drew then g.draws + 1 else g.draws);
      if Collides(bird.y, step.pipes) then
        g'.(highScore := if g'.score > g'.highScore then g'.score else g'.highScore, phase := GameOver)
      else g'
  }

  /** A tick in PLAYING: the bird falls, the pipes update and their points
      are added, and the run ends exactly when the new state collides, with
      the high score raised to the final score if that is larger. */
  lemma TickPlaying(g: Game, rng: HeightSource)
    requires g.phase == Playing
    ensures var r := Tick(g, rng);
            var step := UpdatePipes(g.pipes, rng(g.draws));
            && r.bird == Fall(g.bird)
            && r.score == g.score + step.gained
            && r.pipes == step.pipes
            && r.draws == g.draws + (if step.drew then 1 else 0)
            && (r.phase == GameOver <==> Collides(r.bird.y, r.pipes))
            && (r.phase == GameOver ==> r.highScore == (if r.score > g.highScore then r.score else g.highScore))
            && (r.phase == Playing ==> r.highScore == g.highScore)
  {
  }

  /** One iteration of the main loop: the frame's events, then the tick. */
  function Frame(g: Game, events: seq<Event>, rng: HeightSource): (r: Game)
    ensures r.highScore >= g.highScore
    ensures !g.running ==> !r.running
    ensures events == [] ==> r == Tick(g, rng)
  {
    Tick(HandleEvents(g, events, rng), rng)
  }

  /** A quit request among a frame's events is acted on in that frame: the
      frame ends with the game stopped. */
  lemma FrameQuit(g: Game, events: seq<Event>, rng: HeightSource)
    requires WindowClosed in events || KeyDown(Escape) in events
    ensures !Frame(g, events, rng).running
  {
    HandleEventsQuit(g, events, rng);
  }

  /** The main loop over a sequence of frames; `running` is only looked at
      before a frame, so a quit takes effect after the frame it arrived in. */
  function Run(g: Game, frames: seq<seq<Event>>, rng: HeightSource): (r: Game)
    ensures r.highScore >= g.highScore
    ensures !g.running ==> r == g
    decreases |frames|
  {
    if frames == [] || !g.running then g else Run(Frame(g, frames[0], rng), frames[1..], rng)
  }

  /** Frames are played in order: running `a` and then `b` is running
      `a + b`, including when the game stops part-way through `a`. */
  lemma {:induction false} RunAppend(g: Game, a: seq<seq<Event>>, b: seq<seq<Event>>, rng: HeightSource)
    ensures Run(g, a + b, rng) == Run(Run(g, a, rng), b, rng)
    decreases |a|
  {
    if a == [] {
      assert a + b == b;
    } else if g.running {
      assert (a + b)[0] == a[0];
      assert (a + b)[1..] == a[1..] + b;
      RunAppend(Frame(g, a[0], rng), a[1..], b, rng);
    }
  }

  /** A close or Escape in the first frame ends the loop after that frame:
      no later frame is played. */
  lemma RunQuitStops(g: Game, frames: seq<seq<Event>>, rng: HeightSource)
    requires g.running && |frames| > 0
    requires WindowClosed in frames[0] || KeyDown(Escape) in frames[0]
    ensures Run(g, frames, rng) == Frame(g, frames[0], rng)
  {
    FrameQuit(g, frames[0], rng);
  }
}

=== FILE: invariants.dfy ===
/** Invariants of the whole game state and what follows from them: the
    pipe stream stays well formed, velocities stay bounded, the bird is
    inside the play area while a run is in progress, the high score covers
    the score of a finished run, and an idle run always ends. */
module Invariants {
  import opened Config
  import opened Pipes
  import opened Physics
  import opened Collision
  import opened Controller

  /** The state invariant every reachable game state satisfies. */
  predicate Valid(g: Game)
  {
    && WellFormed(g.pipes)
    && VelocityOk(g.bird.velocity)
    && (g.phase == Playing ==> !OutOfBounds(g.bird.y))
    && (g.phase == GameOver ==> g.score <= g.highScore)
  }

  /** The constructed game satisfies the invariant. */
  lemma InitialValid(rng: HeightSource)
    requires ValidSource(rng)
    ensures Valid(Initial(rng))
  {
  }

  /** A reset draws three in-range heights, giving a well-formed stream. */
  lemma ResetValid(g: Game, rng: HeightSource)
    requires ValidSource(rng)
    ensures WellFormed(Reset(g, rng).pipes)
  {
  }

  /** Every input event keeps the invariant. */
  lemma HandleEventValid(g: Game, e: Event, rng: HeightSource)
    requires Valid(g) && ValidSource(rng)
    ensures Valid(HandleEvent(g, e, rng))
  {
  }

  /** So do the events of a whole frame. */
  lemma {:induction false} HandleEventsValid(g: Game, events: seq<Event>, rng: HeightSource)
    requires Valid(g) && ValidSource(rng)
    ensures Valid(HandleEvents(g, events, rng))
    decreases |events|
  {
    if events != [] {
      HandleEventValid(g, events[0], rng);
      HandleEventsValid(HandleEvent(g, events[0], rng), events[1..], rng);
    }
  }

  /** The per-frame game logic keeps the invariant. */
  lemma TickValid(g: Game, rng: HeightSource)
    requires Valid(g) && ValidSource(rng)
    ensures Valid(Tick(g, rng))
  {
    if g.phase == Playing {
      TickPlaying(g, rng);
      UpdatePreservesWellFormed(g.pipes, rng(g.draws));
      FallProgress(g.bird);
    }
  }

  /** Every frame of the main loop keeps the invariant. */
  lemma FrameValid(g: Game, events: seq<Event>, rng: HeightSource)
    requires Valid(g) && ValidSource(rng)
    ensures Valid(Frame(g, events, rng))
  {
    HandleEventsValid(g, events, rng);
    TickValid(HandleEvents(g, events, rng), rng);
  }

  /** Every state the main loop reaches from a valid one is valid; in
      particular there are always exactly three pipes. */
  lemma {:induction false} RunValid(g: Game, frames: seq<seq<Event>>, rng: HeightSource)
    requires Valid(g) && ValidSource(rng)
    ensures Valid(Run(g, frames, rng))
    ensures |Run(g, frames, rng).pipes| == PipeCount
    decreases |frames|
  {
    if frames != [] && g.running {
      FrameValid(g, frames[0], rng);
      RunValid(Frame(g, frames[0], rng), frames[1..], rng);
    }
  }

  /** A tick of a valid game scores at most one point. */
  lemma TickScoresAtMostOne(g: Game, rng: HeightSource)
    requires Valid(g)
    ensures Tick(g, rng).score <= g.score + 1
  {
    if g.phase == Playing {
      TickPlaying(g, rng);
      UpdateGainsAtMostOne(g.pipes, rng(g.draws));
    }
  }

  /** A reset keeps nothing of the run it ends: two games that agree on
      the phase, high score, running flag and random cursor reset to the
      same state. */
  lemma ResetForgetsRun(g1: Game, g2: Game, rng: HeightSource)
    requires g1.phase == g2.phase && g1.highScore == g2.highScore
    requires g1.running == g2.running && g1.draws == g2.draws
    ensures Reset(g1, rng) == Reset(g2, rng)
  {
  }

  /** `n` frames without any input event. */
  function Idle(g: Game, n: nat, rng: HeightSource): Game
    decreases n
  {
    if n == 0 then g else Idle(Frame(g, [], rng), n - 1, rng)
  }

  /** Frames after a game over change nothing when no event arrives. */
  lemma {:induction false} IdleAfterGameOver(g: Game, n: nat, rng: HeightSource)
    requires g.phase == GameOver
    ensures Idle(g, n, rng) == g
    decreases n
  {
    if n > 0 {
      assert Frame(g, [], rng) == g;
      IdleAfterGameOver(g, n - 1, rng);
    }
  }

  /** What one idle frame does to a bird in play: gravity moves it, and
      if the run continues the bird is still inside the play area. */
  lemma IdleFrameStep(g: Game, rng: HeightSource)
    requires g.phase == Playing
    ensures var t := Frame(g, [], rng);
            && t.bird == Fall(g.bird)
            && (t.phase == Playing || t.phase == GameOver)
            && (t.phase == Playing ==> !OutOfBounds(t.bird.y))
  {
  }

  /** The first of `n` idle frames. */
  lemma IdleUnfold(g: Game, n: nat, rng: HeightSource)
    requires n >= 1
    ensures Idle(g, n, rng) == Idle(Frame(g, [], rng), n - 1, rng)
  {
  }

  /** Without flaps a run always ends: within FallMeasure(bird) idle
      frames the bird has hit a pipe, the ground or the top edge. */
  lemma {:induction false} IdleRunEnds(g: Game, n: nat, rng: HeightSource)
    requires g.phase == Playing
    requires VelocityOk(g.bird.velocity) && !OutOfBounds(g.bird.y)
    requires n >= FallMeasure(g.bird)
    ensures Idle(g, n, rng).phase == GameOver
    decreases n
  {
    var t := Frame(g, [], rng);
    IdleFrameStep(g, rng);
    FallProgress(g.bird);
    IdleUnfold(g, n, rng);
    if t.phase == GameOver {
      IdleAfterGameOver(t, n - 1, rng);
    } else {
      IdleRunEnds(t, n - 1, rng);
    }
  }

  /** A freshly started run without input is over within 760 frames. */
  lemma FreshRunEnds(g: Game, n: nat, rng: HeightSource)
    requires n >= 760
    ensures Idle(StartRun(g, rng), n, rng).phase == GameOver
  {
    IdleRunEnds(StartRun(g, rng), n, rng);
  }
}

=== FILE: physics.dfy ===
/** Bird physics: gravity with a velocity cap (`update_bird`) and the flap.
    Positions and velocities are in half-pixels (see Config). */
module Physics {
  import opened Config

  /** Vertical state of the bird: `y` is its top edge, `velocity` is
      positive downwards, both in half-pixels. */
  datatype Bird = Bird(y: int, velocity: int)

  /** The bird at the start of every run: mid-window, at rest. */
  const StartBird: Bird := Bird(2 * BirdStartY, 0)

  /** `update_bird`: add gravity to the velocity, move by that new velocity,
      and only then cap the velocity, so a bird at the cap still moves by
      the cap plus one gravity step. */
  function Fall(b: Bird): (r: Bird)
    ensures r.y - b.y == b.velocity + Gravity
    ensures r.velocity <= MaxFallSpeed
    ensures b.velocity + Gravity <= MaxFallSpeed ==> r.velocity == b.velocity + Gravity
    ensures b.velocity + Gravity > MaxFallSpeed ==> r.velocity == MaxFallSpeed
  {
    var v := b.velocity + Gravity;
    Bird(b.y + v, if v > MaxFallSpeed then MaxFallSpeed else v)
  }

  /** A flap: the velocity becomes FlapSpeed whatever it was; the position is untouched. */
  function Flap(b: Bird): (r: Bird)
    ensures r.velocity == FlapSpeed && r.y == b.y
    ensures VelocityOk(r.velocity)
  {
    b.(velocity := FlapSpeed)
  }

  /** The velocities a bird can have: between a fresh flap and the cap. */
  predicate VelocityOk(v: int)
  {
    FlapSpeed <= v <= MaxFallSpeed
  }

  /** Half-pixels left before the bird's bottom edge reaches the ground. */
  function Headroom(b: Bird): int
  {
    2 * GroundY - 2 * BirdHeight - b.y
  }

  /** A measure that every gravity step lowers: the distance to the ground
      plus a weighted distance from the velocity cap. The weight 16
      (that is, -FlapSpeed) outweighs the largest upward move a bird with
      VelocityOk can make. */
  function FallMeasure(b: Bird): int
  {
    16 * (MaxFallSpeed - b.velocity) + Headroom(b)
  }

  /** Gravity keeps the velocity within bounds and strictly lowers the
      measure, so without flaps the bird always comes down. */
  lemma FallProgress(b: Bird)
    requires VelocityOk(b.velocity)
    ensures VelocityOk(Fall(b).velocity)
    ensures FallMeasure(Fall(b)) < FallMeasure(b)
  {
  }
}

=== FILE: pipes.dfy ===
/** The pipe stream: the initial three pipes and the per-tick update that
    moves, scores, culls and tops up the pipes (`create_initial_pipes` and
    `update_pipes` in flappy.py). */
module Pipes {
  import opened Config

  /** One obstacle. `x` is its left edge; the top pipe covers rows
      0..topHeight and the bottom pipe rows bottomY..WindowHeight. */
  datatype Pipe = Pipe(x: int, topHeight: int, bottomY: int, passed: bool)

  /** Result of one update: the new pipes, the points scored, and whether a
      random height was consumed for a new pipe. */
  datatype PipeStep = PipeStep(pipes: seq<Pipe>, gained: nat, drew: bool)

  /** A fresh pipe at `x` whose gap starts at `height`. */
  function NewPipe(x: int, height: int): Pipe
  {
    Pipe(x, height, height + PipeGap, false)
  }

  predicate InitialHeightInRange(h: int)
  {
    MinPipeHeight <= h <= InitialMaxPipeHeight
  }

  predicate HeightInRange(h: int)
  {
    MinPipeHeight <= h <= MaxPipeHeight
  }

  /** True once the pipe's right edge is strictly left of the bird. */
  predicate BehindBird(p: Pipe)
  {
    p.x + PipeWidth < BirdX
  }

  /** Invariant of a single pipe: fixed gap, height within the random
      bounds, and the passed flag set exactly when the pipe is behind the bird. */
  predicate PipeOk(p: Pipe)
  {
    && HeightInRange(p.topHeight)
    && p.bottomY == p.topHeight + PipeGap
    && (p.passed <==> BehindBird(p))
  }

  /** Invariant of the stream: exactly three pipes, the first still on
      screen, ascending x with exactly PipeSpacing between neighbours. */
  predicate WellFormed(ps: seq<Pipe>)
  {
    && |ps| == PipeCount
    && ps[0].x > -PipeWidth
    && (forall i :: 0 < i < |ps| ==> ps[i].x == ps[i-1].x + PipeSpacing)
    && (forall i :: 0 <= i < |ps| ==> PipeOk(ps[i]))
  }

  /** Number of pipes whose passed flag is set. */
  function CountPassed(ps: seq<Pipe>): nat
  {
    if ps == [] then 0 else (if ps[0].passed then 1 else 0) + CountPassed(ps[1..])
  }

  /** The three pipes placed at the start of every run, one random height each. */
  function CreateInitialPipes(heights: seq<int>): (ps: seq<Pipe>)
    requires |heights| == PipeCount
    ensures |ps| == PipeCount
    ensures forall i :: 0 <= i < |ps| ==>
              ps[i].x == WindowWidth + i * PipeSpacing && ps[i].topHeight == heights[i] && !ps[i].passed
    ensures (forall i :: 0 <= i < |heights| ==> InitialHeightInRange(heights[i])) ==> WellFormed(ps)
  {
    seq(PipeCount, i requires 0 <= i < PipeCount => NewPipe(WindowWidth + i * PipeSpacing, heights[i]))
  }

  /** One iteration of the update loop on one pipe: move it left, then mark
      it passed if it was not yet and is now behind the bird. */
  function Advance(p: Pipe): (q: Pipe)
    ensures q.x == p.x + PipeVelocity && q.topHeight == p.topHeight && q.bottomY == p.bottomY
    ensures p.passed ==> q.passed
    ensures q.passed <==> p.passed || BehindBird(q)
  {
    var moved := p.(x := p.x + PipeVelocity);
    if !moved.passed && moved.x + PipeWidth < BirdX then moved.(passed := true) else moved
  }

  /** The update loop over all pipes; `gained` counts the score increments. */
  function AdvanceAll(ps: seq<Pipe>): (r: PipeStep)
    ensures |r.pipes| == |ps|
    ensures r.gained == CountPassed(r.pipes) - CountPassed(ps)
    ensures !r.drew
  {
    if ps == [] then PipeStep([], 0, false)
    else
      var q := Advance(ps[0]);
      var rest := AdvanceAll(ps[1..]);
      assert ([q] + rest.pipes)[1..] == rest.pipes;
      PipeStep([q] + rest.pipes, rest.gained + (if !ps[0].passed && q.passed then 1 else 0), false)
  }

  /** Drops the pipes that have left the screen, keeping the order of the rest. */
  function Cull(ps: seq<Pipe>): (r: seq<Pipe>)
    ensures |r| <= |ps|
  {
    if ps == [] then []
    else if ps[0].x > -PipeWidth then [ps[0]] + Cull(ps[1..])
    else Cull(ps[1..])
  }

  /** AdvanceAll applies the single-pipe step to every pipe, in place. */
  lemma {:induction false} AdvanceAllPointwise(ps: seq<Pipe>)
    ensures forall i :: 0 <= i < |ps| ==> AdvanceAll(ps).pipes[i] == Advance(ps[i])
    decreases |ps|
  {
    if ps != [] {
      AdvanceAllPointwise(ps[1..]);
    }
  }

  /** Cull keeps exactly the pipes still on screen. */
  lemma {:induction false} CullMembership(ps: seq<Pipe>)
    ensures forall q :: q in Cull(ps) ==> q in ps && q.x > -PipeWidth
    ensures forall i :: 0 <= i < |ps| && ps[i].x > -PipeWidth ==> ps[i] in Cull(ps)
    decreases |ps|
  {
    if ps != [] {
      CullMembership(ps[1..]);
      assert forall i :: 1 <= i < |ps| ==> ps[i] == ps[1..][i-1];
    }
  }

  /** The largest x among the pipes. */
  function RightmostX(ps: seq<Pipe>): (m: int)
    requires ps != []
    ensures forall i :: 0 <= i < |ps| ==> ps[i].x <= m
    ensures exists i :: 0 <= i < |ps| && ps[i].x == m
  {
    if |ps| == 1 then ps[0].x
    else
      var rest := RightmostX(ps[1..]);
      assert forall i :: 1 <= i < |ps| ==> ps[i] == ps[1..][i-1];
      if ps[0].x >= rest then ps[0].x else rest
  }

  /** `update_pipes`: advance and score every pipe, drop the ones off screen,
      and append one new pipe PipeSpacing right of the rightmost survivor
      (or of the window's right edge) when fewer than three remain. `height`
      is the random top height, consulted only when a pipe is appended. */
  function UpdatePipes(ps: seq<Pipe>, height: int): (r: PipeStep)
    ensures r.gained == CountPassed(AdvanceAll(ps).pipes) - CountPassed(ps)
    ensures |r.pipes| <= |ps| + 1
  {
    var moved := AdvanceAll(ps);
    var kept := Cull(moved.pipes);
    if |kept| < PipeCount then
      var lastX := if kept == [] then WindowWidth else RightmostX(kept);
      PipeStep(kept + [NewPipe(lastX + PipeSpacing, height)], moved.gained, true)
    else
      PipeStep(kept, moved.gained, false)
  }

  /** `update_pipes` first keeps the moved survivors, in their old order,
      and draws a height exactly when fewer than three survived. */
  lemma UpdateKeepsSurvivors(ps: seq<Pipe>, height: int)
    ensures var r := UpdatePipes(ps, height);
            var kept := Cull(AdvanceAll(ps).pipes);
            && r.drew == (|kept| < PipeCount)
            && |r.pipes| == |kept| + (if r.drew then 1 else 0)
            && r.pipes[..|kept|] == kept
  {
  }

  /** The pipe `update_pipes` appends: unpassed, with the drawn height and
      the fixed gap, PipeSpacing right of the rightmost survivor, or of the
      window's right edge when none survived. */
  lemma UpdateAppendsNewPipe(ps: seq<Pipe>, height: int)
    requires |Cull(AdvanceAll(ps).pipes)| < PipeCount
    ensures var r := UpdatePipes(ps, height);
            var kept := Cull(AdvanceAll(ps).pipes);
            |r.pipes| == |kept| + 1 &&
            var n := r.pipes[|kept|];
            && n.topHeight == height && n.bottomY == height + PipeGap && !n.passed
            && (kept == [] ==> n.x == WindowWidth + PipeSpacing)
            && (forall q :: q in kept ==> q.x + PipeSpacing <= n.x)
            && (kept != [] ==> exists q :: q in kept && q.x + PipeSpacing == n.x)
  {
  }

  /** Every moved pipe that is not in the result of `update_pipes` was
      already marked passed. */
  lemma UpdateDropsOnlyPassed(ps: seq<Pipe>, height: int)
    ensures var r := UpdatePipes(ps, height);
            forall i :: 0 <= i < |ps| && Advance(ps[i]) !in r.pipes ==> Advance(ps[i]).passed
  {
    AdvanceAllPointwise(ps);
    CullMembership(AdvanceAll(ps).pipes);
    UpdateKeepsSurvivors(ps, height);
  }

  /** Culling is a filter: it distributes over concatenation, so the
      survivors keep their relative order. */
  lemma {:induction false} CullAppend(a: seq<Pipe>, b: seq<Pipe>)
    ensures Cull(a + b) == Cull(a) + Cull(b)
    decreases |a|
  {
    if a == [] {
      assert a + b == b;
    } else {
      assert (a + b)[0] == a[0];
      assert (a + b)[1..] == a[1..] + b;
      CullAppend(a[1..], b);
    }
  }

  /** A stream entirely on screen survives culling unchanged. */
  lemma {:induction false} CullKeepsOnScreen(ps: seq<Pipe>)
    requires forall i :: 0 <= i < |ps| ==> ps[i].x > -PipeWidth
    ensures Cull(ps) == ps
    decreases |ps|
  {
    if ps != [] {
      CullKeepsOnScreen(ps[1..]);
      assert [ps[0]] + ps[1..] == ps;
    }
  }

  /** Moving one pipe keeps its local invariant. */
  lemma AdvanceKeepsPipeOk(p: Pipe)
    requires PipeOk(p)
    ensures PipeOk(Advance(p))
  {
  }

  /** Unrolls CountPassed on a three-pipe stream. */
  lemma CountPassedThree(ps: seq<Pipe>)
    requires |ps| == 3
    ensures CountPassed(ps) == (if ps[0].passed then 1 else 0) + (if ps[1].passed then 1 else 0)
                               + (if ps[2].passed then 1 else 0)
  {
    var tail := ps[1..];
    assert tail[0] == ps[1] && tail[1..] == [ps[2]];
    assert [ps[2]][1..] == [];
    assert CountPassed([ps[2]]) == (if ps[2].passed then 1 else 0);
    assert CountPassed(tail) == (if ps[1].passed then 1 else 0) + CountPassed([ps[2]]);
  }

  /** After the move step of a well-formed stream only the first pipe can
      have left the screen, and culling removes exactly that one if so. */
  lemma {:induction false} MovedStream(ps: seq<Pipe>)
    requires WellFormed(ps)
    ensures var moved := AdvanceAll(ps).pipes;
            && |moved| == PipeCount
            && moved[1].x == moved[0].x + PipeSpacing && moved[2].x == moved[1].x + PipeSpacing
            && moved[1].x > -PipeWidth
            && (forall i :: 0 <= i < |moved| ==> PipeOk(moved[i]))
            && Cull(moved) == (if moved[0].x > -PipeWidth then moved else moved[1..])
  {
    var moved := AdvanceAll(ps).pipes;
    AdvanceAllPointwise(ps);
    var a, b, c := moved[0], moved[1], moved[2];
    assert moved == [a] + [b, c];
    forall i | 0 <= i < 3
      ensures PipeOk(moved[i])
    {
      AdvanceKeepsPipeOk(ps[i]);
    }
    CullAppend([a], [b, c]);
    CullKeepsOnScreen([b, c]);
    assert Cull([a]) == (if a.x > -PipeWidth then [a] else []) by {
      assert [a][1..] == [];
    }
  }

  /** The case where no pipe leaves the screen: nothing is appended. */
  lemma NoneCulled(ps: seq<Pipe>, height: int)
    requires WellFormed(ps)
    requires AdvanceAll(ps).pipes[0].x > -PipeWidth
    ensures WellFormed(UpdatePipes(ps, height).pipes)
  {
    MovedStream(ps);
    UpdateKeepsSurvivors(ps, height);
    assert UpdatePipes(ps, height).pipes == AdvanceAll(ps).pipes;
  }

  /** The case where the first pipe leaves the screen: one new pipe is
      appended PipeSpacing right of the last one. */
  lemma FirstCulled(ps: seq<Pipe>, height: int)
    requires WellFormed(ps)
    requires HeightInRange(height)
    requires AdvanceAll(ps).pipes[0].x <= -PipeWidth
    ensures WellFormed(UpdatePipes(ps, height).pipes)
  {
    var moved := AdvanceAll(ps).pipes;
    MovedStream(ps);
    var b, c := moved[1], moved[2];
    assert Cull(moved) == [b, c];
    UpdateKeepsSurvivors(ps, height);
    UpdateAppendsNewPipe(ps, height);
    var r := UpdatePipes(ps, height).pipes;
    var n := r[2];
    assert n.x == c.x + PipeSpacing;
    assert PipeOk(n);
    assert r == [b, c, n];
  }

  /** `update_pipes` preserves the stream invariant, so the stream holds
      exactly three evenly spaced pipes after every tick. */
  lemma UpdatePreservesWellFormed(ps: seq<Pipe>, height: int)
    requires WellFormed(ps)
    requires HeightInRange(height)
    ensures WellFormed(UpdatePipes(ps, height).pipes)
  {
    if AdvanceAll(ps).pipes[0].x > -PipeWidth {
      NoneCulled(ps, height);
    } else {
      FirstCulled(ps, height);
    }
  }

  /** In a well-formed stream at most one pipe crosses the bird per tick,
      so the score rises by at most one. */
  lemma {:induction false} UpdateGainsAtMostOne(ps: seq<Pipe>, height: int)
    requires WellFormed(ps)
    ensures UpdatePipes(ps, height).gained <= 1
  {
    var moved := AdvanceAll(ps).pipes;
    AdvanceAllPointwise(ps);
    CountPassedThree(ps);
    CountPassedThree(moved);
  }

  /** The initial pipes already satisfy the stream invariant. */
  lemma InitialPipesWellFormed(heights: seq<int>)
    requires |heights| == PipeCount
    requires forall i :: 0 <= i < |heights| ==> InitialHeightInRange(heights[i])
    ensures WellFormed(CreateInitialPipes(heights))
    ensures CreateInitialPipes(heights)[0].x == WindowWidth
  {
  }
}
